=== FILE: README.md ===
# eleven_tts_cli core, modelled in Dafny

This project models the core of `eleven_tts_cli`, a command-line client for
a remote text-to-speech service. It lists the available voices and lets the
user search them. It sends text for synthesis and streams the returned audio
into a local file. The model covers:

- the value types `Voice` and `TTSRequest`, including the request validator
  and `str(voice)`;
- the exception hierarchy, as a `Kind` tree with an `IsA` relation and an
  `Error` datatype carrying each class's payload;
- the service rules:
  - `list_voices` is a stable sort by lower-cased name;
  - `search_voices` is a case-insensitive substring filter;
  - `generate_audio` is a state transition over an abstract filesystem;
- the pure decisions of the HTTP adapter:
  - credential fallback;
  - request construction;
  - mapping replies to voices, chunk streams or failures.

Modules follow the source layout:

- `Models` is `core/models.py`;
- `Errors` is `core/errors.py`;
- `Services` is `core/services.py`;
- `ElevenLabsApi` is `adapters/elevenlabs_api.py`.

Supporting modules:

- `Wrappers`: `Option`, `Result` and `Outcome`;
- `Text`: Python's `strip`, ASCII `lower`, substring `in`, string ordering and `f"{int}"`;
- `Seqs`: an order-preserving filter;
- `Chunks`: bytes and their concatenation;
- `Paths`: `pathlib` parsing, `parent` and `str()`;
- `StableSort`: `sorted(key=...)`.

Environment and effects become parameters:

- The process environment's `ELEVENLABS_API_KEY` is an `Option<string>` argument.
- An HTTP exchange is a `Reply<T>`. It is either `Response(status, text, content)` or `TransportFailure(cause)`.
- A synthesis body is the list of raw chunks read, plus an optional mid-stream transport failure.
- The adapter's generator is a `Stream`: the chunks it yields, then `Completed` or `Raised(error)`.
- The filesystem is a `map<Path, Entry>`. An entry is a `File(bytes)`, a `Dir` or another entry kind (`Special`).
- `OsFaults` is a parameter for operating-system refusals that the path map cannot explain: the open, or the n-th write.
- `generate_audio` returns the new filesystem, the adapter calls it made, and `Pass` or `Fail(error)`.

`core/errors.py` defines `ValidationError`, but `TTSRequest.__post_init__` (`core/models.py:49-54`) raises Python's built-in `ValueError` for an empty field, and the CLI catches that (`cli.py:290`). `ValidationError` is never raised by the core. The model follows the code: `Models.NewRequest` returns `Failure(message)` with the `ValueError` text.

## Model

| member | source | states |
|---|---|---|
| Models.BareVoice | src/eleven_tts_cli/core/models.py:20-23 | a voice built from id and name alone has no category and no labels |
| Models.Display | src/eleven_tts_cli/core/models.py:25-30 | `str(voice)` starts with "name (id)"; it is longer than that exactly when the category is present and non-empty, and then ends with " [category]" |
| Models.NewRequest | src/eleven_tts_cli/core/models.py:43-54 | construction succeeds iff each field has a non-whitespace character; an accepted request stores the fields unchanged; otherwise the first blank field in the order text, voice id, output path picks the message |
| Text.BlankIffAllSpace | src/eleven_tts_cli/core/models.py:49-54 | `not s.strip()` holds exactly when every character of `s` is whitespace |
| Errors.RootHasNoAncestor | src/eleven_tts_cli/core/errors.py:8-10 | the root application error specialises no other kind of the taxonomy: it is an ancestor of itself only |
| Errors.EveryKindIsCLIError | src/eleven_tts_cli/core/errors.py:8-50 | every exception kind is a subclass of the root application error |
| Errors.IsAPIErrorMatchesHierarchy | src/eleven_tts_cli/core/errors.py:13-50 | a failure counts as an API error iff its class lies below `APIError`: the generic, authentication, rate-limit, network and voice-not-found kinds do, validation and filesystem do not |
| Errors.RateLimitError | src/eleven_tts_cli/core/errors.py:23-27 | a rate-limit error built without a message carries "API rate limit exceeded. Please try again later." |
| Errors.Message | src/eleven_tts_cli/core/errors.py:35-40 | a voice-not-found error keeps the voice id and its message is "Voice with ID '<id>' not found" |
| Errors.VoiceNotFoundMessageNamesVoice | src/eleven_tts_cli/core/errors.py:38-40 | two voice-not-found messages are equal only for the same voice id |
| StableSort.SortByKey | src/eleven_tts_cli/core/services.py:47 | `sorted(..., key=...)` returns a permutation of its input, non-decreasing by key |
| StableSort.SortIsStable | src/eleven_tts_cli/core/services.py:47 | for every key, the elements with that key keep their input order in the result |
| StableSort.SortCharacterised | src/eleven_tts_cli/core/services.py:47 | a sequence is the sort's result iff it is sorted by key and keeps every key's elements in input order |
| Services.ListVoices | src/eleven_tts_cli/core/services.py:32-49 | adapter failures propagate unchanged; otherwise the result is a permutation of the adapter's list, non-decreasing by lower-cased name |
| Services.ListVoicesIsStableSort | src/eleven_tts_cli/core/services.py:44-49 | the listing is exactly the sorted ordering that keeps voices with equal lower-cased names in adapter order |
| Services.ListVoicesEmpty | src/eleven_tts_cli/core/services.py:44-49 | an empty voice list gives an empty listing |
| Text.Contains | src/eleven_tts_cli/core/services.py:113-115 | Python's `needle in hay` holds iff `needle` occurs at some index of `hay` |
| Services.SearchVoices | src/eleven_tts_cli/core/services.py:96-115 | a query that is blank after lower-casing returns the list unchanged; otherwise every returned voice matches the normalised query by name or id |
| Services.SearchSelectsExactlyMatches | src/eleven_tts_cli/core/services.py:113-115 | for a non-blank query the result is an order-preserving subsequence holding each matching voice as often as the input and no other voice |
| Services.SearchIgnoresQueryCase | src/eleven_tts_cli/core/services.py:108-115 | queries equal up to letter case give the same result |
| Services.SearchIgnoresSurroundingSpace | src/eleven_tts_cli/core/services.py:108-111 | whitespace around the query does not change the result |
| Paths.ParsePath | src/eleven_tts_cli/core/services.py:68 | `Path(s)` is rooted exactly when `s` starts with "/"; its segments are the pieces of `s` between slashes, in order, as a subsequence that keeps every piece other than "" and "." as often as it occurs and drops those two; so every segment is non-empty, not ".", and slash-free |
| Paths.ParsedMembership | src/eleven_tts_cli/core/services.py:68 | a string is a segment of `Path(s)` exactly when it is a piece of `s` between slashes other than "" and "." |
| Paths.Parent | src/eleven_tts_cli/core/services.py:71 | `.parent` drops the last segment and keeps the root; a path without segments is its own parent |
| Paths.RenderRoundTrip | src/eleven_tts_cli/core/services.py:71-76 | `str()` of a parsed path parses back to the same path, so the path named in an error message is the one that was checked |
| Services.Drain | src/eleven_tts_cli/core/services.py:82-94 | writing chunks as they arrive leaves the concatenation of all chunks, or of the chunks before the refused write together with that write's error |
| Services.DrainWritesPrefix | src/eleven_tts_cli/core/services.py:82-88 | when a write is refused, the file holds a prefix of the body: the bytes written followed by the bytes of the unwritten chunks are exactly all the bytes yielded |
| Services.GenerateAudio | src/eleven_tts_cli/core/services.py:51-94 | a missing parent directory, or a non-file entry at the path, fails with the matching filesystem error before the adapter is called and changes nothing; so do a parent that is not a directory, whose message is "[Errno 20] Not a directory: '<path>'" after the write prefix, and a refused open, with the refusal's own text; when the destination is writable and the open succeeds, the adapter is called exactly once with the request's text and voice id, the truncated file receives the chunks, write refusals become filesystem errors, and adapter failures pass through |
| Services.FailureKindNamesItsSource | src/eleven_tts_cli/core/services.py:78-94 | a failure is a filesystem error exactly when a local check, the open or a write failed; any other failure is the adapter's own error, and only those are API errors |
| Services.SuccessfulSynthesisSavesBody | src/eleven_tts_cli/core/services.py:79-88 | after a successful synthesis the file holds exactly the concatenation of the raw body chunks, and the adapter was called once with text and voice id |
| Services.InterruptedSynthesisKeepsPrefix | src/eleven_tts_cli/core/services.py:79-92 | a transport failure mid-stream reaches the caller as the adapter's network error and the file holds the bytes received before it |
| Services.EarlyAdapterFailureLeavesEmptyFile | src/eleven_tts_cli/core/services.py:79-86 | the file is truncated on open, so an adapter failure before the first chunk leaves it empty and propagates unchanged |
| Chunks.NonEmptyKeepsBytes | src/eleven_tts_cli/adapters/elevenlabs_api.py:141-144 | skipping empty chunks never changes the byte stream |
| Chunks.NonEmptyCharacterised | src/eleven_tts_cli/adapters/elevenlabs_api.py:141-144 | the yielded chunks are exactly the non-empty raw chunks, in arrival order |
| ElevenLabsApi.NewClient | src/eleven_tts_cli/adapters/elevenlabs_api.py:35-49 | a non-empty explicit key wins; otherwise the environment value is used; with neither, construction fails with an authentication error |
| ElevenLabsApi.ExplicitKeyWins | src/eleven_tts_cli/adapters/elevenlabs_api.py:44 | given a non-empty explicit key, the environment does not influence construction |
| ElevenLabsApi.Headers | src/eleven_tts_cli/adapters/elevenlabs_api.py:51-57 | every request carries the client's key in `xi-api-key` and its own `Accept` |
| ElevenLabsApi.VoicesRequest | src/eleven_tts_cli/adapters/elevenlabs_api.py:73 | voice listing is a GET of the base URL's `/voices`, accepting JSON, with no payload |
| ElevenLabsApi.SynthesisRequest | src/eleven_tts_cli/adapters/elevenlabs_api.py:96-137 | synthesis POSTs to a URL that gives back the voice id; its payload has the text, the model id (default "eleven_monolingual_v1") and stability 0.5 / similarity_boost 0.75 |
| ElevenLabsApi.SynthesisTargetsVoice | src/eleven_tts_cli/adapters/elevenlabs_api.py:121 | different voice ids give different synthesis URLs as formatted, before percent-encoding |
| ElevenLabsApi.HandleHttpError | src/eleven_tts_cli/adapters/elevenlabs_api.py:156-175 | 401 maps to authentication "Invalid API key", 429 to a rate-limit error with the default message, and any other status to a generic API error whose message names the status and the body |
| Text.DecimalRoundTrip | src/eleven_tts_cli/adapters/elevenlabs_api.py:175 | the decimal rendering of a status code reads back as the same code |
| ElevenLabsApi.GenericMessageSplits | src/eleven_tts_cli/adapters/elevenlabs_api.py:174-175 | after the fixed "API error (" prefix, the message splits at its first ')' into the decimal status and ": " followed by the body |
| ElevenLabsApi.GenericErrorIdentifiesReply | src/eleven_tts_cli/adapters/elevenlabs_api.py:174-175 | equal generic error messages come from the same status and the same body |
| ElevenLabsApi.VoicesFromDocument | src/eleven_tts_cli/adapters/elevenlabs_api.py:76-85 | each response entry becomes one voice, field for field and in response order; a missing "voices" key gives no voices |
| ElevenLabsApi.VoiceEntryRoundTrip | src/eleven_tts_cli/adapters/elevenlabs_api.py:77-85 | the mapping between response entries and voices loses nothing in either direction |
| ElevenLabsApi.GetVoices | src/eleven_tts_cli/adapters/elevenlabs_api.py:59-94 | transport failure gives a network error; a non-2xx status goes through the general mapping; a 2xx reply gives exactly the voices mapped from the document, entry for entry in order; every failure is an API error |
| ElevenLabsApi.ListingNotFoundIsGeneric | src/eleven_tts_cli/adapters/elevenlabs_api.py:90-91 | in voice listing a 404 is a generic API error "API error (404): <body>" |
| ElevenLabsApi.SynthesisStatusError | src/eleven_tts_cli/adapters/elevenlabs_api.py:148-151 | in synthesis, 404 is voice-not-found for the requested id, and every other status goes through the general mapping |
| ElevenLabsApi.TextToSpeechStream | src/eleven_tts_cli/adapters/elevenlabs_api.py:96-154 | a transport failure is a network error; an unsuccessful status ends the stream with the mapped error before any chunk; on success it yields exactly the raw body's non-empty chunks in arrival order, carrying all its bytes, then completes or raises a network error if the transport broke mid-stream |
| ElevenLabsApi.NotFoundDiffersByOperation | src/eleven_tts_cli/adapters/elevenlabs_api.py:148-151 | the same 404 is voice-not-found in synthesis but a generic error in listing |
| ElevenLabsApi.SynthesisStatusErrorAsWritten | src/eleven_tts_cli/adapters/elevenlabs_api.py:148-175 | as written, 404, 401 and 429 are mapped, and every other status escapes as `ResponseNotRead` |
| ElevenLabsApi.UnreadErrorBodyEscapesTaxonomy | src/eleven_tts_cli/adapters/elevenlabs_api.py:137-175 | for a 500 the code as written escapes the taxonomy while the corrected mapping gives "API error (500): <body>"; the two agree on 401, 404 and 429 |

## Left out

- Network and file I/O. HTTP exchanges are `Reply` values, the filesystem is a map, and operating-system refusals come from the `OsFaults` parameter.
- httpx client construction, timeouts, `close`, and the context-manager methods. These are foreign-library resource handling.
- Releasing the streaming connection when the consumer stops early. This is resource discipline, not a decision the model can state.
- Logging throughout, and the `bytes_written` counter that only feeds a log line.
- The CLI module (prompts, tables, option parsing, retry loop). It is presentation.
- Text.Lower: only 'A'..'Z' are lower-cased. Python's `str.lower()` also maps non-ASCII letters, so sorting and search on non-ASCII names are approximated.
- Paths.ParsePath: `pathlib`'s special anchor for a path starting with exactly two slashes is not modelled; such a path parses as one with a single root.
- Services.GenerateAudio: when a write is refused, the file holds the bytes of the earlier writes. Python's write buffering and a partial final write are not modelled.
- Services.GenerateAudio: paths are not resolved. The filesystem map is keyed by the path as parsed, so there is no working directory, no resolution of `..` segments and no aliasing: `a/../b`, `b` and the absolute spelling of the same file are separate keys, and writing one leaves the others unchanged. A path such as `..` that has no key of its own counts as absent, where Python would see the directory it names.
- Services.GenerateAudio: operating-system error texts are opaque strings. Opening below an existing non-directory gives "[Errno 20] Not a directory: '<path>'" with the path as rendered between single quotes. This equals Python's `repr` of the path only when the path holds no quote, backslash or unprintable character; otherwise Python switches quotes or escapes characters, and the model does not. Symbolic links and permissions beyond the `OsFaults` parameter are not modelled.
- Services.GenerateAudio: an output path that the operating system cannot encode, such as one holding a NUL character, is not modelled. There `open` raises `ValueError` ("embedded null byte"), which is not an `OSError`; it escapes `generate_audio` and the taxonomy before the adapter is called. The model treats such a path like any other, and `FailureKindNamesItsSource` describes only the failures the model represents.
- ElevenLabsApi.VoicesFromDocument: a response entry always has `voice_id` and `name`. A missing key (`KeyError`) or a body that is not JSON is not modelled.
- ElevenLabsApi.SynthesisRequest: the URL is the formatted string before httpx parses it. httpx percent-encodes the voice id, and a `?` or `#` in the voice id starts a query or a fragment. It also removes `..` segments, so the voice id `../voices` would POST to `/v1/voices`. None of this is modelled. The voice settings are the exact reals 0.5 and 0.75, not binary floats.
- ElevenLabsApi.TextToSpeechStream: httpx refuses some synthesis URLs outright: a voice id holding an ASCII control character (such as a tab), or a URL longer than httpx's maximum length. It raises `httpx.InvalidURL` on the first pull of the stream. That exception is not a `RequestError`, so neither handler at `adapters/elevenlabs_api.py:148-154` catches it, and it escapes the taxonomy. It is not modelled: the model streams the reply for every voice id, and its promise that every failure is an API error covers only the failures the model represents.
- ElevenLabsApi.IsSuccess: the model takes httpx's `raise_for_status` to accept 2xx statuses only.

## Findings

| source | as written | input that shows it | evidently intended | confidence | as-written member | corrected member |
|---|---|---|---|---|---|---|
| src/eleven_tts_cli/adapters/elevenlabs_api.py:148-175 | On an unsuccessful synthesis status other than 401, 404 and 429, `_handle_http_error` reads `error.response.text`. The response is streamed and its body was never read, so httpx raises `ResponseNotRead`, which is outside the taxonomy. | status 500 from the text-to-speech endpoint | an `APIError` "API error (500): <body>", the same mapping voice listing uses | medium; not executed; depends on httpx raising `ResponseNotRead` for an unread streamed body | ElevenLabsApi.SynthesisStatusErrorAsWritten | ElevenLabsApi.SynthesisStatusError |

The lemma `ElevenLabsApi.UnreadErrorBodyEscapesTaxonomy` exhibits the discrepancy for status 500. The rest of the model uses the corrected mapping: `TextToSpeechStream` and everything built on it.

=== FILE: chunks.dfy ===
/** Audio bytes as they travel from the network to the output file. */
module Chunks {
  import opened Seqs

  newtype byte = b: int | 0 <= b < 256

  type Bytes = seq<byte>

  /** The bytes of all chunks, one after another in delivery order. */
  function Concat(chunks: seq<Bytes>): Bytes
  {
    if chunks == [] then [] else chunks[0] + Concat(chunks[1..])
  }

  /** Concatenation distributes over appending chunk lists. */
  lemma {:induction false} ConcatAppend(a: seq<Bytes>, b: seq<Bytes>)
    ensures Concat(a + b) == Concat(a) + Concat(b)
  {
    if a == [] {
      assert a + b == b;
    } else {
      var ab := a + b;
      assert ab[0] == a[0] && ab[1..] == a[1..] + b;
      assert Concat(ab) == a[0] + Concat(a[1..] + b);
      ConcatAppend(a[1..], b);
    }
  }

  predicate NonEmptyChunk(c: Bytes) {
    |c| > 0
  }

  /** The chunks the adapter passes on: the raw chunks that hold at least one byte. */
  function NonEmpty(raw: seq<Bytes>): seq<Bytes> {
    Filter(raw, NonEmptyChunk)
  }

  /** Dropping empty chunks never changes the byte stream. */
  lemma {:induction false} NonEmptyKeepsBytes(raw: seq<Bytes>)
    ensures Concat(NonEmpty(raw)) == Concat(raw)
  {
    if raw != [] {
      NonEmptyKeepsBytes(raw[1..]);
      var rest := NonEmpty(raw[1..]);
      if |raw[0]| == 0 {
        assert NonEmpty(raw) == rest;
        assert raw[0] + Concat(raw[1..]) == Concat(raw[1..]);
      } else {
        assert NonEmpty(raw) == [raw[0]] + rest;
        assert ([raw[0]] + rest)[1..] == rest;
      }
    }
  }

  /** The yielded chunks are the non-empty raw chunks, in arrival order,
      each kept as often as it arrived, and none of them is empty. */
  lemma NonEmptyCharacterised(raw: seq<Bytes>)
    ensures IsSubsequence(NonEmpty(raw), raw)
    ensures forall c :: multiset(NonEmpty(raw))[c] == if |c| > 0 then multiset(raw)[c] else 0
    ensures forall i :: 0 <= i < |NonEmpty(raw)| ==> |NonEmpty(raw)[i]| > 0
  {
    FilterIsSubsequence(raw, NonEmptyChunk);
    forall c {
      FilterCounts(raw, NonEmptyChunk, c);
    }
  }
}

=== FILE: elevenlabs_api.dfy ===
/** The decisions of the HTTP adapter for the remote voice-synthesis
    service: which credential it uses, what requests it sends, how it turns
    replies into voices or audio chunks, and which failure of the taxonomy
    each unsuccessful reply becomes. The network itself is a parameter: a
    reply is a value the caller supplies. */
module ElevenLabsApi {
  import opened Wrappers
  import opened Text
  import opened Chunks
  import opened Errors
  import opened Models

  const BaseUrl: string := "https://api.elevenlabs.io/v1"
  const ApiKeyHeader: string := "xi-api-key"
  const DefaultModelId: string := "eleven_monolingual_v1"
  const MissingKeyMessage: string :=
    "ELEVENLABS_API_KEY not found. Set environment variable or pass api_key parameter."
  const InvalidKeyMessage: string := "Invalid API key"

  /** A client and its credential; `NewClient` only builds clients whose
      credential is non-empty. */
  datatype Client = Client(apiKey: string)

  /** `ElevenLabsClient(api_key)` with the process environment's
      `ELEVENLABS_API_KEY` passed in as `env`: an explicit non-empty key
      wins, the environment is the fallback, and with neither the
      construction fails before any request is made. */
  function NewClient(apiKey: Option<string>, env: Option<string>): (r: Result<Client, Error>)
    ensures r.Success? <==> HasText(apiKey) || HasText(env)
    ensures r.Success? ==> r.value.apiKey != []
    ensures HasText(apiKey) ==> r == Success(Client(apiKey.value))
    ensures !HasText(apiKey) && HasText(env) ==> r == Success(Client(env.value))
    ensures r.Failure? ==> r.error == Authentication(MissingKeyMessage)
  {
    var chosen := if HasText(apiKey) then apiKey else env;
    if HasText(chosen) then Success(Client(chosen.value)) else Failure(Authentication(MissingKeyMessage))
  }

  /** An explicit key makes the environment irrelevant. */
  lemma ExplicitKeyWins(key: string, env1: Option<string>, env2: Option<string>)
    requires key != []
    ensures NewClient(Some(key), env1) == NewClient(Some(key), env2)
  {
  }

  // ---------------------------------------------------------------------
  // Requests

  datatype HttpMethod = Get | Post

  /** The fixed voice settings the synthesis payload carries. */
  datatype VoiceSettings = VoiceSettings(stability: real, similarityBoost: real)

  const DefaultVoiceSettings: VoiceSettings := VoiceSettings(0.5, 0.75)

  datatype SynthesisPayload = SynthesisPayload(text: string, modelId: string, voiceSettings: VoiceSettings)

  datatype HttpRequest = HttpRequest(
    verb: HttpMethod,
    url: string,
    headers: map<string, string>,
    payload: Option<SynthesisPayload>)

  const VoicesUrl: string := BaseUrl + "/voices"
  const SynthesisUrlPrefix: string := BaseUrl + "/text-to-speech/"

  /** The headers the code sets: the client's credential header merged with
      the per-request `Accept`. httpx adds its own defaults, and a
      `Content-Type: application/json` for a JSON payload. */
  function Headers(c: Client, accept: string): (h: map<string, string>)
    ensures h.Keys == {ApiKeyHeader, "Accept"}
    ensures h[ApiKeyHeader] == c.apiKey && h["Accept"] == accept
  {
    map[ApiKeyHeader := c.apiKey, "Accept" := accept]
  }

  /** The request `get_voices` sends. */
  function VoicesRequest(c: Client): (r: HttpRequest)
    ensures r.verb == Get && r.url == VoicesUrl && r.payload.None?
    ensures r.headers == Headers(c, "application/json")
  {
    HttpRequest(Get, VoicesUrl, Headers(c, "application/json"), None)
  }

  /** The request `text_to_speech_stream` opens, `modelId` defaulting. */
  function SynthesisRequest(c: Client, text: string, voiceId: string, modelId: Option<string>): (r: HttpRequest)
    ensures r.verb == Post
    ensures r.headers == Headers(c, "audio/mpeg")
    ensures r.payload.Some? && r.payload.value.text == text
    ensures r.payload.value.voiceSettings == DefaultVoiceSettings
    ensures r.payload.value.modelId == if modelId.Some? then modelId.value else DefaultModelId
    ensures VoiceIdOfUrl(r.url) == Some(voiceId)
  {
    var model := if modelId.Some? then modelId.value else DefaultModelId;
    var url := SynthesisUrlPrefix + voiceId;
    assert url[..|SynthesisUrlPrefix|] == SynthesisUrlPrefix;
    assert url[|SynthesisUrlPrefix|..] == voiceId;
    HttpRequest(Post, url, Headers(c, "audio/mpeg"), Some(SynthesisPayload(text, model, DefaultVoiceSettings)))
  }

  /** Reads the voice id back out of a synthesis URL. */
  function VoiceIdOfUrl(url: string): Option<string> {
    if |SynthesisUrlPrefix| <= |url| && url[..|SynthesisUrlPrefix|] == SynthesisUrlPrefix
    then Some(url[|SynthesisUrlPrefix|..])
    else None
  }

  /** Different voices give different request paths, as the URL is formatted
      before httpx percent-encodes it ("a b" and "a%20b" coincide afterwards). */
  lemma SynthesisTargetsVoice(c: Client, text: string, v1: string, v2: string, m: Option<string>)
    requires v1 != v2
    ensures SynthesisRequest(c, text, v1, m).url != SynthesisRequest(c, text, v2, m).url
  {
    assert VoiceIdOfUrl(SynthesisRequest(c, text, v1, m).url) == Some(v1);
    assert VoiceIdOfUrl(SynthesisRequest(c, text, v2, m).url) == Some(v2);
  }

  // ---------------------------------------------------------------------
  // Replies and status mapping

  /** What the transport delivers for one request: a response with a status
      line, body text and decoded content, or a failure to get one at all
      (connection refused, DNS, timeout). */
  datatype Reply<T> = Response(status: int, text: string, content: T) | TransportFailure(cause: string)

  /** `raise_for_status()` lets exactly the 2xx statuses through. */
  predicate IsSuccess(status: int) {
    200 <= status < 300
  }

  function GenericMessage(status: int, body: string): string {
    "API error (" + DecimalString(status) + "): " + body
  }

  /** `_handle_http_error`: 401 and 429 have their own kinds, every other
      status becomes a generic API error naming the status and the body. */
  function HandleHttpError(status: int, body: string): (e: Error)
    ensures IsAPIError(e)
    ensures status == 401 <==> e == Authentication(InvalidKeyMessage)
    ensures status == 429 <==> e == RateLimitError(None)
    ensures status != 401 && status != 429 ==> e == APIError(GenericMessage(status, body))
  {
    if status == 401 then Authentication(InvalidKeyMessage)
    else if status == 429 then RateLimitError(None)
    else APIError(GenericMessage(status, body))
  }

  /** The text before the first ')' of `s`, and the text after it. */
  function SplitAtParen(s: string): (string, string) {
    if s == [] then ([], [])
    else if s[0] == ')' then ([], s[1..])
    else var (a, b) := SplitAtParen(s[1..]); ([s[0]] + a, b)
  }

  /** A ')'-free prefix is recovered by splitting at the first ')'. */
  lemma {:induction false} SplitAtParenRecovers(x: string, y: string)
    requires ')' !in x
    ensures SplitAtParen(x + ")" + y) == (x, y)
  {
    if x != [] {
      SplitAtParenRecovers(x[1..], y);
      assert (x + ")" + y)[1..] == x[1..] + ")" + y;
      assert [x[0]] + x[1..] == x;
    } else {
      assert x + ")" + y == [')'] + y;
    }
  }

  /** After the fixed prefix, a generic message splits at its first ')' into
      the status digits and the ": "-prefixed body. */
  lemma GenericMessageSplits(status: int, body: string)
    ensures |GenericMessage(status, body)| >= 11
    ensures SplitAtParen(GenericMessage(status, body)[11..]) == (DecimalString(status), ": " + body)
  {
    var d := DecimalString(status);
    assert GenericMessage(status, body) == "API error (" + (d + ")" + (": " + body));
    assert GenericMessage(status, body)[11..] == d + ")" + (": " + body);
    assert ')' !in d by {
      assert forall i :: 0 <= i < |d| ==> d[i] == '-' || '0' <= d[i] <= '9';
    }
    SplitAtParenRecovers(d, ": " + body);
  }

  /** A generic API error identifies the status and the body it came from. */
  lemma GenericErrorIdentifiesReply(s1: int, b1: string, s2: int, b2: string)
    requires GenericMessage(s1, b1) == GenericMessage(s2, b2)
    ensures s1 == s2 && b1 == b2
  {
    GenericMessageSplits(s1, b1);
    GenericMessageSplits(s2, b2);
    DecimalRoundTrip(s1);
    DecimalRoundTrip(s2);
    assert b1 == (": " + b1)[2..] && b2 == (": " + b2)[2..];
  }

  // ---------------------------------------------------------------------
  // Voice listing

  /** One object of the response's "voices" array; absent optional keys
      (and JSON null) are `None`. */
  datatype VoiceEntry = VoiceEntry(
    voiceId: string,
    name: string,
    category: Option<string>,
    labels: Option<map<string, string>>)

  /** The decoded listing body; `None` when the "voices" key is missing. */
  datatype VoicesDocument = VoicesDocument(voices: Option<seq<VoiceEntry>>)

  function VoiceFromEntry(e: VoiceEntry): Voice {
    Voice(e.voiceId, e.name, e.category, e.labels)
  }

  function EntryFromVoice(v: Voice): VoiceEntry {
    VoiceEntry(v.voiceId, v.name, v.category, v.labels)
  }

  /** The mapping from entries to voices loses nothing, in both directions. */
  lemma VoiceEntryRoundTrip(e: VoiceEntry, v: Voice)
    ensures EntryFromVoice(VoiceFromEntry(e)) == e
    ensures VoiceFromEntry(EntryFromVoice(v)) == v
  {
  }

  /** `[Voice(...) for v in data.get("voices", [])]`. */
  function VoicesFromDocument(d: VoicesDocument): (r: seq<Voice>)
    ensures d.voices.None? ==> r == []
    ensures d.voices.Some? ==> |r| == |d.voices.value|
    ensures d.voices.Some? ==> forall i :: 0 <= i < |r| ==> EntryFromVoice(r[i]) == d.voices.value[i]
  {
    if d.voices.None? then []
    else seq(|d.voices.value|, i requires 0 <= i < |d.voices.value| => VoiceFromEntry(d.voices.value[i]))
  }

  const VoicesNetworkPrefix: string := "Network error while fetching voices: "
  const SynthesisNetworkPrefix: string := "Network error during text-to-speech: "

  /** `get_voices`: the voices in response order, or the one failure the
      reply maps to. A 404 is not special here. */
  function GetVoices(reply: Reply<VoicesDocument>): (r: Result<seq<Voice>, Error>)
    ensures r.Failure? ==> IsAPIError(r.error)
    ensures reply.TransportFailure? ==> r == Failure(Network(VoicesNetworkPrefix + reply.cause))
    ensures reply.Response? && !IsSuccess(reply.status) ==> r == Failure(HandleHttpError(reply.status, reply.text))
    ensures reply.Response? && IsSuccess(reply.status) ==> r == Success(VoicesFromDocument(reply.content))
  {
    match reply
    case TransportFailure(cause) => Failure(Network(VoicesNetworkPrefix + cause))
    case Response(status, text, doc) =>
      if IsSuccess(status) then Success(VoicesFromDocument(doc)) else Failure(HandleHttpError(status, text))
  }

  /** Listing treats 404 like any other unexpected status. */
  lemma ListingNotFoundIsGeneric(text: string, doc: VoicesDocument)
    ensures GetVoices(Response(404, text, doc)) == Failure(APIError("API error (404): " + text))
  {
    assert DecimalString(404) == "404";
    assert GenericMessage(404, text) == "API error (404): " + text;
  }

  // ---------------------------------------------------------------------
  // Synthesis

  /** The raw streamed body: the chunks read before the stream ended, and
      the transport failure that ended it early, if any. */
  datatype RawBody = RawBody(chunks: seq<Bytes>, interruption: Option<string>)

  /** How a chunk stream ends once its chunks have been consumed. */
  datatype StreamEnd = Completed | Raised(error: Error)

  /** What the generator yields, then how it stops. */
  datatype Stream = Stream(chunks: seq<Bytes>, end: StreamEnd)

  /** The failure for an unsuccessful synthesis status: 404 names the voice,
      everything else goes through `HandleHttpError`. This is the corrected
      mapping, which reads the error body before reporting it. */
  function SynthesisStatusError(status: int, body: string, voiceId: string): (e: Error)
    ensures IsAPIError(e)
    ensures status == 404 ==> e == VoiceNotFound(voiceId)
    ensures status != 404 ==> e == HandleHttpError(status, body)
  {
    if status == 404 then VoiceNotFound(voiceId) else HandleHttpError(status, body)
  }

  /** `text_to_speech_stream` over one reply: the yielded chunks are the
      non-empty raw chunks in arrival order, carrying the same bytes, and
      every failure is an API error. httpx's refusal of a malformed URL
      (`InvalidURL`) is outside the model. */
  function TextToSpeechStream(voiceId: string, reply: Reply<RawBody>): (s: Stream)
    ensures s.end.Raised? ==> IsAPIError(s.end.error)
    ensures reply.TransportFailure? ==> s == Stream([], Raised(Network(SynthesisNetworkPrefix + reply.cause)))
    ensures reply.Response? && !IsSuccess(reply.status) ==>
      s == Stream([], Raised(SynthesisStatusError(reply.status, reply.text, voiceId)))
    ensures reply.Response? && IsSuccess(reply.status) ==>
      && s.chunks == NonEmpty(reply.content.chunks)
      && Concat(s.chunks) == Concat(reply.content.chunks)
      && (forall i :: 0 <= i < |s.chunks| ==> s.chunks[i] != [])
      && (reply.content.interruption.None? <==> s.end == Completed)
      && (reply.content.interruption.Some? ==>
            s.end == Raised(Network(SynthesisNetworkPrefix + reply.content.interruption.value)))
  {
    match reply
    case TransportFailure(cause) => Stream([], Raised(Network(SynthesisNetworkPrefix + cause)))
    case Response(status, text, body) =>
      if !IsSuccess(status) then Stream([], Raised(SynthesisStatusError(status, text, voiceId)))
      else
        NonEmptyKeepsBytes(body.chunks);
        var end := if body.interruption.Some? then Raised(Network(SynthesisNetworkPrefix + body.interruption.value)) else Completed;
        Stream(NonEmpty(body.chunks), end)
  }

  /** Synthesis maps 404 to voice-not-found for the requested voice, while
      listing maps the same status to a generic error. */
  lemma NotFoundDiffersByOperation(voiceId: string, text: string, body: RawBody, doc: VoicesDocument)
    ensures TextToSpeechStream(voiceId, Response(404, text, body)).end == Raised(VoiceNotFound(voiceId))
    ensures GetVoices(Response(404, text, doc)).error.APIError?
  {
  }

  /** The exception the code as written ends up raising for an unsuccessful
      synthesis status: either a taxonomy failure or httpx's
      `ResponseNotRead`, which is outside the taxonomy. */
  datatype SynthesisEscape = Mapped(error: Error) | ResponseNotRead

  /** The status handling of `text_to_speech_stream` as written. The
      response is streamed and its body never read, so `_handle_http_error`
      touching `error.response.text` raises `ResponseNotRead` for every status
      other than 401, 404 and 429. */
  function SynthesisStatusErrorAsWritten(status: int, voiceId: string): (r: SynthesisEscape)
    ensures status == 404 ==> r == Mapped(VoiceNotFound(voiceId))
    ensures status == 401 ==> r == Mapped(Authentication(InvalidKeyMessage))
    ensures status == 429 ==> r == Mapped(RateLimitError(None))
    ensures status != 401 && status != 404 && status != 429 ==> r == ResponseNotRead
  {
    if status == 404 then Mapped(VoiceNotFound(voiceId))
    else if status == 401 then Mapped(Authentication(InvalidKeyMessage))
    else if status == 429 then Mapped(RateLimitError(None))
    else ResponseNotRead
  }

  /** For a 500 reply the code as written escapes the taxonomy, while the
      corrected mapping reports a generic API error naming status and body;
      the two agree on the statuses that never read the body. */
  lemma UnreadErrorBodyEscapesTaxonomy(voiceId: string, body: string)
    ensures SynthesisStatusErrorAsWritten(500, voiceId) == ResponseNotRead
    ensures SynthesisStatusError(500, body, voiceId) == APIError("API error (500): " + body)
    ensures forall s :: s == 401 || s == 404 || s == 429 ==>
      SynthesisStatusErrorAsWritten(s, voiceId) == Mapped(SynthesisStatusError(s, body, voiceId))
  {
    assert DecimalString(500) == "500";
    assert GenericMessage(500, body) == "API error (500): " + body;
  }
}

=== FILE: errors.dfy ===
/** The application's closed family of failures. Each Python exception class
    is a `Kind`, its base class is `Base`, and a raised exception is an
    `Error` value carrying the payload its class defines. */
module Errors {
  import opened Wrappers

  /** One kind per exception class, the root included. */
  datatype Kind =
    | CLIErrorKind
    | APIErrorKind
    | AuthenticationKind
    | RateLimitKind
    | NetworkKind
    | VoiceNotFoundKind
    | ValidationKind
    | FileSystemKind

  /** The direct base class of each kind; the root has none. */
  function Base(k: Kind): Option<Kind> {
    match k
    case CLIErrorKind => None
    case APIErrorKind => Some(CLIErrorKind)
    case AuthenticationKind => Some(APIErrorKind)
    case RateLimitKind => Some(APIErrorKind)
    case NetworkKind => Some(APIErrorKind)
    case VoiceNotFoundKind => Some(APIErrorKind)
    case ValidationKind => Some(CLIErrorKind)
    case FileSystemKind => Some(CLIErrorKind)
  }

  /** Distance from the root of the hierarchy. */
  function Depth(k: Kind): nat {
    match k
    case CLIErrorKind => 0
    case APIErrorKind | ValidationKind | FileSystemKind => 1
    case _ => 2
  }

  /** `issubclass(k, ancestor)`: `ancestor` is `k` or reached by following bases. */
  predicate IsA(k: Kind, ancestor: Kind)
    decreases Depth(k)
  {
    k == ancestor || (Base(k).Some? && IsA(Base(k).value, ancestor))
  }

  /** The root reaches nothing but itself. */
  lemma RootHasNoAncestor(a: Kind)
    ensures IsA(CLIErrorKind, a) <==> a == CLIErrorKind
  {
  }

  /** Every kind specialises the root application error, so one handler for
      the root catches every failure of the core. */
  lemma EveryKindIsCLIError(k: Kind)
    ensures IsA(k, CLIErrorKind)
  {
  }

  /** A raised failure with its payload. The generic `APIError` is raised
      directly; the root class is never raised by the core. */
  datatype Error =
    | APIError(message: string)
    | Authentication(message: string)
    | RateLimit(message: string)
    | Network(message: string)
    | VoiceNotFound(voiceId: string)
    | Validation(message: string)
    | FileSystem(message: string)

  function KindOf(e: Error): Kind {
    match e
    case APIError(_) => APIErrorKind
    case Authentication(_) => AuthenticationKind
    case RateLimit(_) => RateLimitKind
    case Network(_) => NetworkKind
    case VoiceNotFound(_) => VoiceNotFoundKind
    case Validation(_) => ValidationKind
    case FileSystem(_) => FileSystemKind
  }

  /** The failures an `except APIError` clause catches. */
  predicate IsAPIError(e: Error) {
    e.APIError? || e.Authentication? || e.RateLimit? || e.Network? || e.VoiceNotFound?
  }

  /** The classification agrees with the class hierarchy, in both directions:
      the API kinds are exactly those below `APIError`. */
  lemma IsAPIErrorMatchesHierarchy(e: Error)
    ensures IsAPIError(e) <==> IsA(KindOf(e), APIErrorKind)
    ensures IsA(KindOf(e), CLIErrorKind)
  {
  }

  const RateLimitDefaultMessage: string := "API rate limit exceeded. Please try again later."

  /** `RateLimitError(message)`, whose message argument defaults. */
  function RateLimitError(message: Option<string>): (e: Error)
    ensures e.RateLimit?
    ensures message.None? ==> e.message == RateLimitDefaultMessage
    ensures message.Some? ==> e.message == message.value
  {
    RateLimit(if message.Some? then message.value else RateLimitDefaultMessage)
  }

  /** The exception's `str()`: the message, which for voice-not-found is
      derived from the stored voice id. */
  function Message(e: Error): (m: string)
    ensures e.VoiceNotFound? ==> m == "Voice with ID '" + e.voiceId + "' not found"
    ensures !e.VoiceNotFound? ==> m == e.message
  {
    match e
    case VoiceNotFound(id) => "Voice with ID '" + id + "' not found"
    case _ => e.message
  }

  /** The voice id is recoverable from a voice-not-found message, so the
      message names exactly the requested voice. */
  lemma VoiceNotFoundMessageNamesVoice(a: string, b: string)
    ensures Message(VoiceNotFound(a)) == Message(VoiceNotFound(b)) ==> a == b
  {
    var ma := Message(VoiceNotFound(a));
    var mb := Message(VoiceNotFound(b));
    if ma == mb {
      var pre := "Voice with ID '";
      assert |a| == |b|;
      assert a == ma[|pre|..|pre| + |a|];
      assert b == mb[|pre|..|pre| + |b|];
    }
  }
}

=== FILE: models.dfy ===
/** The domain values: a voice offered by the remote service and a
    validated text-to-speech request. */
module Models {
  import opened Wrappers
  import opened Text

  /** A voice as the remote service describes it; never changed after construction. */
  datatype Voice = Voice(
    voiceId: string,
    name: string,
    category: Option<string>,
    labels: Option<map<string, string>>)

  /** `Voice(voice_id, name)`: the optional fields take their defaults. */
  function BareVoice(voiceId: string, name: string): (v: Voice)
    ensures v.voiceId == voiceId && v.name == name
    ensures v.category.None? && v.labels.None?
  {
    Voice(voiceId, name, None, None)
  }

  /** Python truthiness of an optional string: present and non-empty. */
  predicate HasText(s: Option<string>) {
    s.Some? && s.value != []
  }

  /** `str(voice)`: "name (id)", followed by " [category]" when the voice has a
      non-empty category. */
  function Display(v: Voice): (r: string)
    ensures |r| >= |v.name| + |v.voiceId| + 3
    ensures r[..|v.name| + |v.voiceId| + 3] == v.name + " (" + v.voiceId + ")"
    ensures HasText(v.category) <==> |r| > |v.name| + |v.voiceId| + 3
    ensures HasText(v.category) ==> r[|v.name| + |v.voiceId| + 3..] == " [" + v.category.value + "]"
  {
    var base := v.name + " (" + v.voiceId + ")";
    if HasText(v.category) then base + " [" + v.category.value + "]" else base
  }

  /** The three fields of a text-to-speech request. `NewRequest` only
      builds requests that satisfy `ValidRequest`. */
  datatype TTSRequest = TTSRequest(text: string, voiceId: string, outputPath: string)

  predicate ValidRequest(r: TTSRequest) {
    !IsBlank(r.text) && !IsBlank(r.voiceId) && !IsBlank(r.outputPath)
  }

  const TextEmpty: string := "Text cannot be empty"
  const VoiceIdEmpty: string := "Voice ID cannot be empty"
  const OutputPathEmpty: string := "Output path cannot be empty"

  /** Constructing a `TTSRequest`: the fields are checked in the order text,
      voice id, output path, and the first blank one is rejected with a
      `ValueError` whose message names it. The check strips only to test;
      an accepted request stores the fields exactly as given. */
  function NewRequest(text: string, voiceId: string, outputPath: string): (r: Result<TTSRequest, string>)
    ensures r.Success? <==> !AllSpace(text) && !AllSpace(voiceId) && !AllSpace(outputPath)
    ensures r.Success? ==> r.value == TTSRequest(text, voiceId, outputPath) && ValidRequest(r.value)
    ensures AllSpace(text) ==> r == Failure(TextEmpty)
    ensures !AllSpace(text) && AllSpace(voiceId) ==> r == Failure(VoiceIdEmpty)
    ensures !AllSpace(text) && !AllSpace(voiceId) && AllSpace(outputPath) ==> r == Failure(OutputPathEmpty)
  {
    BlankIffAllSpace(text);
    BlankIffAllSpace(voiceId);
    BlankIffAllSpace(outputPath);
    if IsBlank(text) then Failure(TextEmpty)
    else if IsBlank(voiceId) then Failure(VoiceIdEmpty)
    else if IsBlank(outputPath) then Failure(OutputPathEmpty)
    else Success(TTSRequest(text, voiceId, outputPath))
  }
}

=== FILE: paths.dfy ===
/** POSIX path strings as Python's `pathlib` reads them: an optional root
    and the list of segments between slashes, with empty and "." segments
    dropped. Only `parent` and `str()` are needed by the service. */
module Paths {
  import opened Seqs

  datatype Path = Path(absolute: bool, parts: seq<string>)

  /** Segments that survive parsing. */
  predicate IsSegment(x: string) {
    x != "" && x != "."
  }

  /** A path as parsing produces it: every segment kept and slash-free. */
  predicate WellFormed(p: Path) {
    forall i :: 0 <= i < |p.parts| ==> IsSegment(p.parts[i]) && '/' !in p.parts[i]
  }

  /** `s.split("/")`. */
  function SplitOn(s: string): (r: seq<string>)
    ensures |r| >= 1
    ensures forall i :: 0 <= i < |r| ==> '/' !in r[i]
  {
    if s == [] then [[]]
    else
      var rest := SplitOn(s[1..]);
      if s[0] == '/' then [[]] + rest else [[s[0]] + rest[0]] + rest[1..]
  }

  /** `"/".join(parts)`. */
  function Join(parts: seq<string>): string {
    if |parts| == 0 then ""
    else if |parts| == 1 then parts[0]
    else parts[0] + "/" + Join(parts[1..])
  }

  /** The pieces kept by parsing: slash-free segments, in order, each as
      often as among all pieces. */
  lemma KeptPieces(s: string)
    ensures var kept := Filter(SplitOn(s), IsSegment);
      && (forall i :: 0 <= i < |kept| ==> IsSegment(kept[i]) && '/' !in kept[i])
      && IsSubsequence(kept, SplitOn(s))
      && (forall x :: multiset(kept)[x] == if IsSegment(x) then multiset(SplitOn(s))[x] else 0)
  {
    var pieces := SplitOn(s);
    var kept := Filter(pieces, IsSegment);
    FilterIsSubsequence(pieces, IsSegment);
    forall x ensures multiset(kept)[x] == if IsSegment(x) then multiset(pieces)[x] else 0 {
      FilterCounts(pieces, IsSegment, x);
    }
    forall i | 0 <= i < |kept| ensures '/' !in kept[i] {
      assert kept[i] in pieces;
    }
  }

  /** `Path(s)`: rooted exactly when `s` starts with a slash; the segments
      are the pieces between slashes, in order, with empty and "." pieces
      dropped and every other piece kept as often as it occurs. */
  function ParsePath(s: string): (p: Path)
    ensures WellFormed(p)
    ensures p.absolute <==> |s| > 0 && s[0] == '/'
    ensures IsSubsequence(p.parts, SplitOn(s))
    ensures forall x :: multiset(p.parts)[x] == if IsSegment(x) then multiset(SplitOn(s))[x] else 0
  {
    KeptPieces(s);
    Path(|s| > 0 && s[0] == '/', Filter(SplitOn(s), IsSegment))
  }

  /** A string is a segment of the parsed path exactly when it is one of the
      pieces between slashes other than "" and ".". */
  lemma ParsedMembership(s: string, x: string)
    ensures x in ParsePath(s).parts <==> x in SplitOn(s) && IsSegment(x)
  {
    assert multiset(ParsePath(s).parts)[x] == if IsSegment(x) then multiset(SplitOn(s))[x] else 0;
  }

  /** `str(path)`: "." for the empty relative path. */
  function Render(p: Path): string {
    if p.absolute then "/" + Join(p.parts)
    else if p.parts == [] then "."
    else Join(p.parts)
  }

  /** `path.parent`: the last segment removed; a path without segments is its own parent. */
  function Parent(p: Path): (q: Path)
    ensures q.absolute == p.absolute
    ensures p.parts == [] ==> q == p
    ensures p.parts != [] ==> q.parts + [p.parts[|p.parts| - 1]] == p.parts
  {
    if p.parts == [] then p else Path(p.absolute, p.parts[..|p.parts| - 1])
  }

  /** Splitting after a slash-free prefix extends the first piece. */
  lemma {:induction false} SplitOnPrefix(x: string, t: string)
    requires '/' !in x
    ensures SplitOn(x + t) == [x + SplitOn(t)[0]] + SplitOn(t)[1..]
  {
    if x != [] {
      var r, xt := SplitOn(t), x + t;
      assert xt[0] == x[0] && xt[1..] == x[1..] + t;
      SplitOnPrefix(x[1..], t);
      var rest := SplitOn(xt[1..]);
      assert rest[0] == x[1..] + r[0] && rest[1..] == r[1..];
      assert SplitOn(xt) == [[x[0]] + rest[0]] + rest[1..];
      assert [x[0]] + (x[1..] + r[0]) == x + r[0];
    } else {
      assert x + t == t;
      var r := SplitOn(t);
      assert x + r[0] == r[0];
      assert [r[0]] + r[1..] == r;
    }
  }

  /** Splitting undoes joining slash-free segments. */
  lemma {:induction false} SplitJoin(parts: seq<string>)
    requires |parts| >= 1
    requires forall i :: 0 <= i < |parts| ==> '/' !in parts[i]
    ensures SplitOn(Join(parts)) == parts
  {
    if |parts| == 1 {
      SplitOnPrefix(parts[0], "");
      assert parts[0] + "" == parts[0];
    } else {
      SplitJoin(parts[1..]);
      var rest := "/" + Join(parts[1..]);
      SplitOnPrefix(parts[0], rest);
      assert SplitOn(rest) == [[]] + parts[1..];
      assert parts[0] + "/" + Join(parts[1..]) == parts[0] + rest;
      assert parts[0] + [] == parts[0];
    }
  }

  /** Parsing unfolded: the root flag and the kept pieces. */
  lemma ParsedAs(s: string)
    ensures ParsePath(s) == Path(|s| > 0 && s[0] == '/', Filter(SplitOn(s), IsSegment))
  {
  }

  /** "/" and "." hold no segment. */
  lemma RenderedNoSegments(absolute: bool)
    ensures Filter(SplitOn(Render(Path(absolute, []))), IsSegment) == []
  {
    var s := Render(Path(absolute, []));
    if absolute {
      assert SplitOn(s) == [[], []];
    } else {
      assert s == ['.'] && s[1..] == [];
      assert SplitOn(s[1..]) == [[]];
      assert SplitOn(s) == [['.'] + []] + [];
    }
  }

  /** The kept pieces of a rendered well-formed path are its segments. */
  lemma RenderedPieces(p: Path)
    requires WellFormed(p)
    ensures Filter(SplitOn(Render(p)), IsSegment) == p.parts
  {
    var s := Render(p);
    if p.parts == [] {
      RenderedNoSegments(p.absolute);
    } else {
      SplitJoin(p.parts);
      FilterKeepsAll(p.parts, IsSegment);
      if p.absolute {
        assert SplitOn(s) == [[]] + p.parts;
        FilterAppend([[]], p.parts, IsSegment);
      }
    }
  }

  /** A rendered well-formed path starts with a slash exactly when it is rooted. */
  lemma RenderedRoot(p: Path)
    requires WellFormed(p)
    ensures |Render(p)| > 0 && Render(p)[0] == '/' <==> p.absolute
  {
    if !p.absolute && p.parts != [] {
      assert p.parts[0] != [] && '/' !in p.parts[0];
      assert Join(p.parts)[0] == p.parts[0][0];
    }
  }

  /** Rendering then parsing a well-formed path gives it back: the string in
      an error message identifies the path. */
  lemma RenderRoundTrip(p: Path)
    requires WellFormed(p)
    ensures ParsePath(Render(p)) == p
  {
    ParsedAs(Render(p));
    RenderedPieces(p);
    RenderedRoot(p);
  }

}

=== FILE: seqs.dfy ===
/** Order-preserving selection from a sequence, the shape shared by the
    voice search, the empty-chunk filter, the per-key view of a stable sort
    and the path-segment filter. */
module Seqs {

  /** The elements of `s` that satisfy `p`, in their original order. */
  function Filter<T>(s: seq<T>, p: T -> bool): (r: seq<T>)
    ensures |r| <= |s|
    ensures forall i :: 0 <= i < |r| ==> p(r[i])
  {
    if s == [] then [] else (if p(s[0]) then [s[0]] else []) + Filter(s[1..], p)
  }

  /** `a` is obtained from `b` by deleting elements, keeping the order of the rest. */
  ghost predicate IsSubsequence<T>(a: seq<T>, b: seq<T>)
    decreases |b|
  {
    a == [] || (b != [] && ((a[0] == b[0] && IsSubsequence(a[1..], b[1..])) || IsSubsequence(a, b[1..])))
  }

  /** The filter keeps what it keeps in the original order. */
  lemma {:induction false} FilterIsSubsequence<T>(s: seq<T>, p: T -> bool)
    ensures IsSubsequence(Filter(s, p), s)
  {
    if s != [] {
      FilterIsSubsequence(s[1..], p);
      var rest := Filter(s[1..], p);
      if p(s[0]) {
        assert Filter(s, p) == [s[0]] + rest;
        assert Filter(s, p)[1..] == rest;
      } else {
        assert Filter(s, p) == rest;
      }
    }
  }

  /** The filter keeps every occurrence of every selected element and
      no occurrence of any other: exactly those elements, with multiplicity. */
  lemma {:induction false} FilterCounts<T>(s: seq<T>, p: T -> bool, x: T)
    ensures multiset(Filter(s, p))[x] == if p(x) then multiset(s)[x] else 0
  {
    if s != [] {
      FilterCounts(s[1..], p, x);
      assert s == [s[0]] + s[1..];
    }
  }

  /** A selected element is one of the input's, and every input element that
      satisfies `p` is selected. */
  lemma FilterMembership<T>(s: seq<T>, p: T -> bool, x: T)
    ensures x in Filter(s, p) <==> x in s && p(x)
  {
    FilterCounts(s, p, x);
    assert x in Filter(s, p) <==> multiset(Filter(s, p))[x] > 0;
    assert x in s <==> multiset(s)[x] > 0;
  }

  /** Filtering a concatenation filters each part separately, so elements
      can be judged one by one as they arrive. */
  lemma {:induction false} FilterAppend<T>(a: seq<T>, b: seq<T>, p: T -> bool)
    ensures Filter(a + b, p) == Filter(a, p) + Filter(b, p)
  {
    if a == [] {
      assert a + b == b;
    } else {
      var ab := a + b;
      assert ab[0] == a[0];
      assert ab[1..] == a[1..] + b;
      var head := if p(a[0]) then [a[0]] else [];
      assert Filter(ab, p) == head + Filter(a[1..] + b, p);
      FilterAppend(a[1..], b, p);
      assert Filter(a, p) == head + Filter(a[1..], p);
      assert head + (Filter(a[1..], p) + Filter(b, p)) == (head + Filter(a[1..], p)) + Filter(b, p);
    }
  }

  /** When every element satisfies `p`, nothing is removed. */
  lemma {:induction false} FilterKeepsAll<T>(s: seq<T>, p: T -> bool)
    requires forall i :: 0 <= i < |s| ==> p(s[i])
    ensures Filter(s, p) == s
  {
    if s != [] {
      FilterKeepsAll(s[1..], p);
    }
  }

  /** When no element satisfies `p`, everything is removed. */
  lemma {:induction false} FilterKeepsNone<T>(s: seq<T>, p: T -> bool)
    requires forall i :: 0 <= i < |s| ==> !p(s[i])
    ensures Filter(s, p) == []
  {
    if s != [] {
      FilterKeepsNone(s[1..], p);
    }
  }
}

=== FILE: services.dfy ===
/** The service layer: listing voices in name order, searching them, and
    streaming synthesised audio into a file. The filesystem is a map from
    parsed paths to entries; the adapter's answer is the chunk stream it
    yields; operating-system refusals are a parameter. */
module Services {
  import opened Wrappers
  import opened Text
  import opened Seqs
  import opened Chunks
  import opened Errors
  import opened Models
  import opened Paths
  import opened StableSort
  import opened ElevenLabsApi

  // ---------------------------------------------------------------------
  // list_voices

  /** The sort key `v.name.lower()`. */
  function NameKey(v: Voice): string {
    Lower(v.name)
  }

  /** `list_voices` given what `get_voices` returned: adapter failures pass
      through unchanged; voices come back as a permutation sorted by
      lower-cased name, equal names keeping their adapter order. */
  function ListVoices(fetched: Result<seq<Voice>, Error>): (r: Result<seq<Voice>, Error>)
    ensures fetched.Failure? ==> r == fetched
    ensures fetched.Success? ==> r.Success?
    ensures fetched.Success? ==> multiset(r.value) == multiset(fetched.value)
    ensures fetched.Success? ==> SortedBy(r.value, NameKey)
  {
    var voices :- fetched;
    Success(SortByKey(voices, NameKey))
  }

  /** Stability and uniqueness: the listing keeps the adapter's order among
      voices whose names differ only in case (or not at all), and it is the
      only sorted ordering that does. */
  lemma ListVoicesIsStableSort(fetched: seq<Voice>, r: seq<Voice>)
    ensures ListVoices(Success(fetched)) == Success(r) <==>
      SortedBy(r, NameKey) && forall k :: WithKey(r, NameKey, k) == WithKey(fetched, NameKey, k)
  {
    SortCharacterised(fetched, r, NameKey);
  }

  /** An empty listing stays empty. */
  lemma ListVoicesEmpty()
    ensures ListVoices(Success([])) == Success([])
  {
  }

  // ---------------------------------------------------------------------
  // search_voices

  /** `query.lower().strip()`. */
  function NormalizeQuery(query: string): string {
    Strip(Lower(query))
  }

  /** The query, already normalised, occurs in the lower-cased name or id. */
  predicate Matches(q: string, v: Voice) {
    Contains(Lower(v.name), q) || Contains(Lower(v.voiceId), q)
  }

  function MatchesQuery(q: string): Voice -> bool {
    v => Matches(q, v)
  }

  /** `search_voices`: a blank query returns the list itself; otherwise the
      voices matching the normalised query, in their original order. It
      cannot fail and consults nothing but its arguments. */
  function SearchVoices(query: string, voices: seq<Voice>): (r: seq<Voice>)
    ensures AllSpace(Lower(query)) ==> r == voices
    ensures !AllSpace(Lower(query)) ==> forall i :: 0 <= i < |r| ==> Matches(NormalizeQuery(query), r[i])
  {
    BlankIffAllSpace(Lower(query));
    var q := NormalizeQuery(query);
    if q == [] then voices else Filter(voices, MatchesQuery(q))
  }

  /** For a non-blank query the result is exactly the matching voices: an
      order-preserving subsequence of the input, holding every matching
      voice as often as the input does and no other voice. */
  lemma SearchSelectsExactlyMatches(query: string, voices: seq<Voice>, v: Voice)
    requires !AllSpace(Lower(query))
    ensures IsSubsequence(SearchVoices(query, voices), voices)
    ensures multiset(SearchVoices(query, voices))[v] ==
      if Matches(NormalizeQuery(query), v) then multiset(voices)[v] else 0
    ensures v in SearchVoices(query, voices) <==> v in voices && Matches(NormalizeQuery(query), v)
  {
    BlankIffAllSpace(Lower(query));
    var q := NormalizeQuery(query);
    FilterIsSubsequence(voices, MatchesQuery(q));
    FilterCounts(voices, MatchesQuery(q), v);
    FilterMembership(voices, MatchesQuery(q), v);
  }

  /** Searching ignores the case of the query's letters. */
  lemma SearchIgnoresQueryCase(q1: string, q2: string, voices: seq<Voice>)
    requires Lower(q1) == Lower(q2)
    ensures SearchVoices(q1, voices) == SearchVoices(q2, voices)
  {
  }

  /** Surrounding whitespace in the query changes nothing. */
  lemma SearchIgnoresSurroundingSpace(q: string, pad1: string, pad2: string, voices: seq<Voice>)
    requires AllSpace(pad1) && AllSpace(pad2)
    ensures SearchVoices(pad1 + q + pad2, voices) == SearchVoices(q, voices)
  {
    var padded := pad1 + q + pad2;
    LowerKeepsSpace(pad1);
    LowerKeepsSpace(pad2);
    assert Lower(padded) == pad1 + Lower(q) + pad2;
    StripPadded(pad1, Lower(q), pad2);
    BlankIffAllSpace(Lower(padded));
    BlankIffAllSpace(Lower(q));
  }

  // ---------------------------------------------------------------------
  // generate_audio

  /** What a path names: a regular file with its bytes, a directory, or
      another kind of entry (device, socket, fifo). */
  datatype Entry = File(content: Bytes) | Dir | Special

  type FileSystem = map<Path, Entry>

  /** The operating system refusing the `n`-th write (counting from 0). */
  datatype WriteFault = WriteFault(at: nat, cause: string)

  /** Refusals the path map does not explain (permissions, a full disk),
      each with the text of the `OSError` raised. */
  datatype OsFaults = OsFaults(openFault: Option<string>, writeFault: Option<WriteFault>)

  /** One call of `text_to_speech_stream`, with its arguments. */
  datatype SynthCall = SynthCall(text: string, voiceId: string)

  /** The effect of one `generate_audio`: the filesystem afterwards, the
      adapter calls made, and whether it returned or raised. */
  datatype Run = Run(fs: FileSystem, calls: seq<SynthCall>, outcome: Outcome<Error>)

  const MissingDirPrefix: string := "Output directory does not exist: "
  const NotAFilePrefix: string := "Output path exists but is not a file: "
  const WritePrefix: string := "Error writing audio file: "
  const NotADirectoryCause: string := "[Errno 20] Not a directory"

  /** The `OSError` text for opening `p` below something that is not a
      directory: the cause followed by the quoted path as opened. */
  function NotADirectoryText(p: Path): string {
    NotADirectoryCause + ": '" + Render(p) + "'"
  }

  /** The write fault strikes one of the first `n` writes. */
  predicate FaultWithin(fault: Option<WriteFault>, n: nat) {
    fault.Some? && fault.value.at < n
  }

  /** The bytes appended to the file while consuming chunks, and the write
      failure that stopped consumption, if any. */
  datatype Drained = Drained(written: Bytes, failure: Option<string>)

  /** Writes each chunk as it is pulled, stopping at the faulty write. */
  function Drain(chunks: seq<Bytes>, fault: Option<WriteFault>): (d: Drained)
    ensures FaultWithin(fault, |chunks|) ==>
      d == Drained(Concat(chunks[..fault.value.at]), Some(fault.value.cause))
    ensures !FaultWithin(fault, |chunks|) ==> d == Drained(Concat(chunks), None)
  {
    if chunks == [] then Drained([], None)
    else if fault.Some? && fault.value.at == 0 then
      assert chunks[..0] == [];
      Drained([], Some(fault.value.cause))
    else
      var later := if fault.Some? then Some(WriteFault(fault.value.at - 1, fault.value.cause)) else None;
      var rest := Drain(chunks[1..], later);
      assert FaultWithin(fault, |chunks|) ==>
        chunks[..fault.value.at][1..] == chunks[1..][..fault.value.at - 1];
      Drained(chunks[0] + rest.written, rest.failure)
  }

  /** A refused write leaves a prefix of the complete body in the file: the
      bytes written, followed by those of the chunks never written, are all
      the bytes the adapter yielded. */
  lemma DrainWritesPrefix(chunks: seq<Bytes>, fault: Option<WriteFault>)
    requires FaultWithin(fault, |chunks|)
    ensures Drain(chunks, fault).written + Concat(chunks[fault.value.at..]) == Concat(chunks)
  {
    var n := fault.value.at;
    assert chunks == chunks[..n] + chunks[n..];
    ConcatAppend(chunks[..n], chunks[n..]);
  }

  /** `generate_audio(request)`, where `stream` is what the adapter yields
      for the request's text and voice. Both precondition checks and the
      opening of the file come before the adapter is called; opening
      truncates; each chunk is written as it arrives; write failures become
      filesystem errors while adapter failures pass through unchanged. */
  function GenerateAudio(fs: FileSystem, request: TTSRequest, stream: Stream, faults: OsFaults): (run: Run)
    ensures var p := ParsePath(request.outputPath);
      Parent(p) !in fs ==>
        run == Run(fs, [], Fail(FileSystem(MissingDirPrefix + Render(Parent(p)))))
    ensures var p := ParsePath(request.outputPath);
      Parent(p) in fs && p in fs && !fs[p].File? ==>
        run == Run(fs, [], Fail(FileSystem(NotAFilePrefix + Render(p))))
    ensures var p := ParsePath(request.outputPath);
      Parent(p) in fs && fs[Parent(p)] != Dir && (p in fs ==> fs[p].File?) ==>
        run == Run(fs, [], Fail(FileSystem(WritePrefix + NotADirectoryText(p))))
    ensures Writable(fs, ParsePath(request.outputPath)) && faults.openFault.Some? ==>
      run == Run(fs, [], Fail(FileSystem(WritePrefix + faults.openFault.value)))
    ensures Writable(fs, ParsePath(request.outputPath)) && faults.openFault.None? ==>
      run.calls == [SynthCall(request.text, request.voiceId)]
    ensures run.calls == [] || run.calls == [SynthCall(request.text, request.voiceId)]
    ensures run.calls == [] ==> run.fs == fs && run.outcome.Fail? && run.outcome.error.FileSystem?
    ensures run.calls != [] ==>
      var p := ParsePath(request.outputPath);
      && Parent(p) in fs && fs[Parent(p)] == Dir && faults.openFault.None?
      && (p in fs ==> fs[p].File?)
      && run.fs == fs[p := File(Drain(stream.chunks, faults.writeFault).written)]
      && (FaultWithin(faults.writeFault, |stream.chunks|) ==>
            run.outcome == Fail(FileSystem(WritePrefix + faults.writeFault.value.cause)))
      && (!FaultWithin(faults.writeFault, |stream.chunks|) ==>
            run.outcome == if stream.end.Completed? then Pass else Fail(stream.end.error))
  {
    var p := ParsePath(request.outputPath);
    var parent := Parent(p);
    if parent !in fs then
      Run(fs, [], Fail(FileSystem(MissingDirPrefix + Render(parent))))
    else if p in fs && !fs[p].File? then
      Run(fs, [], Fail(FileSystem(NotAFilePrefix + Render(p))))
    else if fs[parent] != Dir then
      Run(fs, [], Fail(FileSystem(WritePrefix + NotADirectoryText(p))))
    else if faults.openFault.Some? then
      Run(fs, [], Fail(FileSystem(WritePrefix + faults.openFault.value)))
    else
      var d := Drain(stream.chunks, faults.writeFault);
      var outcome :=
        if d.failure.Some? then Fail(FileSystem(WritePrefix + d.failure.value))
        else if stream.end.Raised? then Fail(stream.end.error)
        else Pass;
      Run(fs[p := File(d.written)], [SynthCall(request.text, request.voiceId)], outcome)
  }

  /** Where a failure of `generate_audio` comes from can be read off its kind:
      a filesystem error is raised exactly when a local check, the open or a
      write failed, and any other failure is the adapter's, unchanged. A
      path `open` refuses with `ValueError` (a NUL character) is outside
      the model. */
  lemma FailureKindNamesItsSource(fs: FileSystem, request: TTSRequest, stream: Stream, faults: OsFaults)
    requires stream.end.Raised? ==> IsAPIError(stream.end.error)
    ensures var run := GenerateAudio(fs, request, stream, faults);
      run.outcome.Fail? ==>
        && (run.outcome.error.FileSystem? <==>
              run.calls == [] || FaultWithin(faults.writeFault, |stream.chunks|))
        && (!run.outcome.error.FileSystem? ==> stream.end == Raised(run.outcome.error))
        && (IsAPIError(run.outcome.error) <==> !run.outcome.error.FileSystem?)
  {
  }

  /** A writable destination: its directory exists and nothing but a regular
      file is already there. */
  predicate Writable(fs: FileSystem, p: Path) {
    Parent(p) in fs && fs[Parent(p)] == Dir && (p in fs ==> fs[p].File?)
  }

  /** End to end: when synthesis succeeds and nothing refuses a write, the
      file holds exactly the bytes the service sent, in order, whatever
      chunking (empty chunks included) the transport used. The request is
      given by its three fields. */
  lemma SuccessfulSynthesisSavesBody(fs: FileSystem, text: string, voiceId: string, outputPath: string,
                                     status: int, replyText: string, raw: seq<Bytes>)
    requires Writable(fs, ParsePath(outputPath))
    requires IsSuccess(status)
    ensures var stream := TextToSpeechStream(voiceId, Response(status, replyText, RawBody(raw, None)));
      GenerateAudio(fs, TTSRequest(text, voiceId, outputPath), stream, OsFaults(None, None)) ==
        Run(fs[ParsePath(outputPath) := File(Concat(raw))], [SynthCall(text, voiceId)], Pass)
  {
  }

  /** End to end: when the transport fails mid-stream, the network error
      reaches the caller unchanged and the file keeps every byte that arrived
      before the failure. */
  lemma InterruptedSynthesisKeepsPrefix(fs: FileSystem, text: string, voiceId: string, outputPath: string,
                                        status: int, replyText: string, raw: seq<Bytes>, cause: string)
    requires Writable(fs, ParsePath(outputPath))
    requires IsSuccess(status)
    ensures var stream := TextToSpeechStream(voiceId, Response(status, replyText, RawBody(raw, Some(cause))));
      GenerateAudio(fs, TTSRequest(text, voiceId, outputPath), stream, OsFaults(None, None)) ==
        Run(fs[ParsePath(outputPath) := File(Concat(raw))], [SynthCall(text, voiceId)],
            Fail(Network(SynthesisNetworkPrefix + cause)))
  {
  }

  /** Opening truncates: when the adapter fails before yielding anything, an
      existing file is left empty, not with its old content, and the
      adapter's failure is what the caller sees. */
  lemma EarlyAdapterFailureLeavesEmptyFile(fs: FileSystem, text: string, voiceId: string, outputPath: string, e: Error)
    requires Writable(fs, ParsePath(outputPath))
    ensures GenerateAudio(fs, TTSRequest(text, voiceId, outputPath), Stream([], Raised(e)), OsFaults(None, None)) ==
      Run(fs[ParsePath(outputPath) := File([])], [SynthCall(text, voiceId)], Fail(e))
  {
  }
}

=== FILE: stable_sort.dfy ===
/** Python's `sorted(xs, key=f)` for string keys: a stable sort, here an
    insertion sort on sequences, characterised as the only ordering of the
    input that is sorted by key and keeps equal-key elements in their
    original relative order. */
module StableSort {
  import opened Text
  import opened Seqs

  /** Non-decreasing by key under Python's string comparison. */
  ghost predicate SortedBy<T>(s: seq<T>, key: T -> string) {
    forall i, j :: 0 <= i < j < |s| ==> LexLe(key(s[i]), key(s[j]))
  }

  /** The elements whose key is `k`, in the order they occur. */
  function WithKey<T>(s: seq<T>, key: T -> string, k: string): seq<T> {
    Filter(s, KeyIs(key, k))
  }

  function KeyIs<T>(key: T -> string, k: string): T -> bool {
    x => key(x) == k
  }

  /** Places `x` after every leading element whose key is not greater than
      `x`'s, so among equal keys it comes last. */
  function Insert<T>(x: T, s: seq<T>, key: T -> string): (r: seq<T>)
    ensures multiset(r) == multiset(s) + multiset{x}
  {
    if s == [] then [x]
    else if LexLe(key(s[0]), key(x)) then
      assert s == [s[0]] + s[1..];
      [s[0]] + Insert(x, s[1..], key)
    else
      [x] + s
  }

  /** Prepending an element whose key is below every key keeps a sequence sorted. */
  lemma ConsSorted<T>(y: T, s: seq<T>, key: T -> string)
    requires SortedBy(s, key)
    requires forall j :: 0 <= j < |s| ==> LexLe(key(y), key(s[j]))
    ensures SortedBy([y] + s, key)
  {
    var r := [y] + s;
    forall i, j | 0 <= i < j < |r| ensures LexLe(key(r[i]), key(r[j])) {
      assert r[j] == s[j - 1];
      if i > 0 {
        assert r[i] == s[i - 1];
      }
    }
  }

  /** Dropping the head keeps a sequence sorted. */
  lemma SortedTail<T>(s: seq<T>, key: T -> string)
    requires s != [] && SortedBy(s, key)
    ensures SortedBy(s[1..], key)
  {
    forall i, j | 0 <= i < j < |s[1..]| ensures LexLe(key(s[1..][i]), key(s[1..][j])) {
      assert s[1..][i] == s[i + 1] && s[1..][j] == s[j + 1];
    }
  }

  /** Insertion keeps a sorted sequence sorted. */
  lemma {:induction false} InsertSorted<T>(x: T, s: seq<T>, key: T -> string)
    requires SortedBy(s, key)
    ensures SortedBy(Insert(x, s, key), key)
  {
    if s == [] {
    } else if LexLe(key(s[0]), key(x)) {
      var tail := Insert(x, s[1..], key);
      SortedTail(s, key);
      InsertSorted(x, s[1..], key);
      forall j | 0 <= j < |tail| ensures LexLe(key(s[0]), key(tail[j])) {
        assert tail[j] in multiset(tail);
        assert tail[j] in multiset(s[1..]) + multiset{x};
        if tail[j] != x {
          assert tail[j] in s[1..];
          var k :| 0 <= k < |s[1..]| && s[1..][k] == tail[j];
          assert s[k + 1] == tail[j];
        }
      }
      ConsSorted(s[0], tail, key);
    } else {
      LexLeTotal(key(s[0]), key(x));
      forall j | 0 <= j < |s| ensures LexLe(key(x), key(s[j])) {
        if j > 0 {
          LexLeTransitive(key(x), key(s[0]), key(s[j]));
        }
      }
      ConsSorted(x, s, key);
    }
  }

  /** `sorted(s, key=key)`: each element in turn inserted into the sorted prefix. */
  function SortByKey<T>(s: seq<T>, key: T -> string): (r: seq<T>)
    ensures multiset(r) == multiset(s)
    ensures SortedBy(r, key)
  {
    if s == [] then []
    else
      assert s == s[..|s| - 1] + [s[|s| - 1]];
      InsertSorted(s[|s| - 1], SortByKey(s[..|s| - 1], key), key);
      Insert(s[|s| - 1], SortByKey(s[..|s| - 1], key), key)
  }

  /** One step of the per-key view: the head is kept when it has key `k`. */
  lemma WithKeyCons<T>(s: seq<T>, key: T -> string, k: string)
    requires s != []
    ensures WithKey(s, key, k) == (if key(s[0]) == k then [s[0]] else []) + WithKey(s[1..], key, k)
  {
  }

  /** When `x` goes in front, no element of `s` shares its key. */
  lemma PrependWithKey<T>(x: T, s: seq<T>, key: T -> string, k: string)
    requires s != [] && SortedBy(s, key) && !LexLe(key(s[0]), key(x))
    ensures WithKey([x] + s, key, k) == WithKey(s, key, k) + (if key(x) == k then [x] else [])
  {
    WithKeyCons([x] + s, key, k);
    assert ([x] + s)[1..] == s;
    if key(x) == k {
      LexLeTotal(k, k);
      forall i | 0 <= i < |s| ensures key(s[i]) != k {
        if i > 0 {
          assert LexLe(key(s[0]), key(s[i]));
        }
      }
      FilterKeepsNone(s, KeyIs(key, k));
    }
  }

  /** Inserting into a sorted sequence puts `x` after every element of equal key. */
  lemma {:induction false} InsertWithKey<T>(x: T, s: seq<T>, key: T -> string, k: string)
    requires SortedBy(s, key)
    ensures WithKey(Insert(x, s, key), key, k) == WithKey(s, key, k) + (if key(x) == k then [x] else [])
  {
    if s == [] {
      WithKeyCons([x], key, k);
    } else if LexLe(key(s[0]), key(x)) {
      var tail := Insert(x, s[1..], key);
      var head := if key(s[0]) == k then [s[0]] else [];
      var last := if key(x) == k then [x] else [];
      calc {
        WithKey(Insert(x, s, key), key, k);
        WithKey([s[0]] + tail, key, k);
        { WithKeyCons([s[0]] + tail, key, k); assert ([s[0]] + tail)[1..] == tail; }
        head + WithKey(tail, key, k);
        { SortedTail(s, key); InsertWithKey(x, s[1..], key, k); }
        head + (WithKey(s[1..], key, k) + last);
        (head + WithKey(s[1..], key, k)) + last;
        { WithKeyCons(s, key, k); }
        WithKey(s, key, k) + last;
      }
    } else {
      assert Insert(x, s, key) == [x] + s;
      PrependWithKey(x, s, key, k);
    }
  }

  /** The sort is stable: for every key, the elements with that key appear in
      the result in the same order, and as often, as in the input. */
  lemma {:induction false} SortIsStable<T>(s: seq<T>, key: T -> string, k: string)
    ensures WithKey(SortByKey(s, key), key, k) == WithKey(s, key, k)
  {
    if s != [] {
      var init := s[..|s| - 1];
      var last := s[|s| - 1];
      var sortedInit := SortByKey(init, key);
      var lastView := if key(last) == k then [last] else [];
      calc {
        WithKey(SortByKey(s, key), key, k);
        WithKey(Insert(last, sortedInit, key), key, k);
        { InsertWithKey(last, sortedInit, key, k); }
        WithKey(sortedInit, key, k) + lastView;
        { SortIsStable(init, key, k); }
        WithKey(init, key, k) + lastView;
        { WithKeyCons([last], key, k); }
        WithKey(init, key, k) + WithKey([last], key, k);
        { FilterAppend(init, [last], KeyIs(key, k)); }
        WithKey(init + [last], key, k);
        { assert s == init + [last]; }
        WithKey(s, key, k);
      }
    }
  }

  /** Two sequences sorted by key that agree on every per-key view are equal. */
  lemma {:induction false} SortedViewsDetermine<T>(a: seq<T>, b: seq<T>, key: T -> string)
    requires SortedBy(a, key) && SortedBy(b, key)
    requires forall k :: WithKey(a, key, k) == WithKey(b, key, k)
    ensures a == b
    decreases |a|
  {
    if a == [] || b == [] {
      if a != [] {
        WithKeyCons(a, key, key(a[0]));
      } else if b != [] {
        WithKeyCons(b, key, key(b[0]));
      }
    } else {
      var ka, kb := key(a[0]), key(b[0]);
      WithKeyCons(a, key, ka);
      WithKeyCons(b, key, kb);
      assert LexLe(kb, ka) by {
        FilterMembership(b, KeyIs(key, ka), a[0]);
        assert a[0] in WithKey(b, key, ka);
        var j :| 0 <= j < |b| && b[j] == a[0];
        if j == 0 { LexLeTotal(kb, ka); }
      }
      assert LexLe(ka, kb) by {
        FilterMembership(a, KeyIs(key, kb), b[0]);
        assert b[0] in WithKey(a, key, kb);
        var j :| 0 <= j < |a| && a[j] == b[0];
        if j == 0 { LexLeTotal(ka, kb); }
      }
      LexLeAntisymmetric(ka, kb);
      assert WithKey(a, key, ka) == WithKey(b, key, ka);
      assert a[0] == WithKey(a, key, ka)[0] == b[0];
      forall k ensures WithKey(a[1..], key, k) == WithKey(b[1..], key, k) {
        WithKeyCons(a, key, k);
        WithKeyCons(b, key, k);
        assert WithKey(a, key, k) == WithKey(b, key, k);
        if key(a[0]) == k {
          assert WithKey(a[1..], key, k) == WithKey(a, key, k)[1..];
          assert WithKey(b[1..], key, k) == WithKey(b, key, k)[1..];
        } else {
          assert WithKey(a[1..], key, k) == WithKey(a, key, k);
          assert WithKey(b[1..], key, k) == WithKey(b, key, k);
        }
      }
      SortedViewsDetermine(a[1..], b[1..], key);
      assert a == [a[0]] + a[1..] && b == [b[0]] + b[1..];
    }
  }

  /** The sort's result is the one and only sequence that is sorted by key
      and keeps every key's elements in input order. */
  lemma SortCharacterised<T>(s: seq<T>, r: seq<T>, key: T -> string)
    ensures r == SortByKey(s, key) <==> SortedBy(r, key) && forall k :: WithKey(r, key, k) == WithKey(s, key, k)
  {
    forall k ensures WithKey(SortByKey(s, key), key, k) == WithKey(s, key, k) {
      SortIsStable(s, key, k);
    }
    if SortedBy(r, key) && forall k :: WithKey(r, key, k) == WithKey(s, key, k) {
      SortedViewsDetermine(r, SortByKey(s, key), key);
    }
  }
}

=== FILE: text.dfy ===
/** Character and string primitives the core relies on: Python's
    `str.strip()`, `str.lower()`, the `in` substring test, the code-point
    ordering `sorted` uses on strings, and the decimal rendering of an
    integer inside an f-string. */
module Text {

  /** The characters CPython's `str.isspace()` accepts, which are exactly the
      characters `str.strip()` with no argument removes. */
  predicate IsSpace(c: char) {
    || c == ' ' || c == '\t' || c == '\n' || c == '\r'
    || c == '\U{000B}' || c == '\U{000C}'
    || ('\U{001C}' <= c <= '\U{001F}')
    || c == '\U{0085}' || c == '\U{00A0}' || c == '\U{1680}'
    || ('\U{2000}' <= c <= '\U{200A}')
    || c == '\U{2028}' || c == '\U{2029}' || c == '\U{202F}' || c == '\U{205F}'
    || c == '\U{3000}'
  }

  /** A string all of whose characters are whitespace (the empty string included). */
  predicate AllSpace(s: string) {
    forall i :: 0 <= i < |s| ==> IsSpace(s[i])
  }

  /** `s.lstrip()`: drop the leading whitespace. */
  function StripLeft(s: string): (r: string)
    ensures r == [] || !IsSpace(r[0])
    ensures |r| <= |s|
  {
    if s != [] && IsSpace(s[0]) then StripLeft(s[1..]) else s
  }

  /** `s.rstrip()`: drop the trailing whitespace. */
  function StripRight(s: string): (r: string)
    ensures r == [] || !IsSpace(r[|r| - 1])
    ensures |r| <= |s| && r == s[..|r|]
  {
    if s != [] && IsSpace(s[|s| - 1]) then StripRight(s[..|s| - 1]) else s
  }

  /** `s.strip()`: whitespace removed from both ends. */
  function Strip(s: string): (r: string)
    ensures r == [] || (!IsSpace(r[0]) && !IsSpace(r[|r| - 1]))
    ensures |r| <= |s|
  {
    StripRight(StripLeft(s))
  }

  /** Python's `not s.strip()`: the string is empty or only whitespace. */
  predicate IsBlank(s: string) {
    Strip(s) == []
  }

  /** `lstrip` removes everything exactly when everything is whitespace. */
  lemma {:induction false} StripLeftEmpty(s: string)
    ensures StripLeft(s) == [] <==> AllSpace(s)
  {
    if s != [] && IsSpace(s[0]) {
      StripLeftEmpty(s[1..]);
      assert AllSpace(s) <==> AllSpace(s[1..]) by {
        if AllSpace(s[1..]) {
          forall i | 1 <= i < |s| ensures IsSpace(s[i]) {
            assert s[1..][i - 1] == s[i];
          }
        }
      }
    }
  }

  /** `rstrip` removes everything exactly when everything is whitespace. */
  lemma {:induction false} StripRightEmpty(s: string)
    ensures StripRight(s) == [] <==> AllSpace(s)
  {
    if s != [] && IsSpace(s[|s| - 1]) {
      var init := s[..|s| - 1];
      StripRightEmpty(init);
      assert AllSpace(s) <==> AllSpace(init) by {
        if AllSpace(init) {
          forall i | 0 <= i < |s| - 1 ensures IsSpace(s[i]) {
            assert init[i] == s[i];
          }
        }
      }
    }
  }

  /** Stripping leaves nothing exactly when every character is whitespace. */
  lemma BlankIffAllSpace(s: string)
    ensures IsBlank(s) <==> AllSpace(s)
  {
    var l := StripLeft(s);
    StripLeftEmpty(s);
    StripRightEmpty(l);
  }

  /** Leading whitespace is skipped by `lstrip`. */
  lemma {:induction false} StripLeftSkipsSpace(pad: string, s: string)
    requires AllSpace(pad)
    ensures StripLeft(pad + s) == StripLeft(s)
  {
    if pad == [] {
      assert pad + s == s;
    } else {
      StripLeftSkipsSpace(pad[1..], s);
      assert (pad + s)[1..] == pad[1..] + s;
    }
  }

  /** Trailing whitespace is skipped by `rstrip`. */
  lemma {:induction false} StripRightSkipsSpace(s: string, pad: string)
    requires AllSpace(pad)
    ensures StripRight(s + pad) == StripRight(s)
  {
    if pad == [] {
      assert s + pad == s;
    } else {
      var init := pad[..|pad| - 1];
      StripRightSkipsSpace(s, init);
      assert (s + pad)[..|s + pad| - 1] == s + init;
    }
  }

  /** `lstrip` stops inside `s` when `s` has a non-whitespace character,
      leaving whatever follows untouched. */
  lemma {:induction false} StripLeftStopsEarly(s: string, t: string)
    requires !AllSpace(s)
    ensures StripLeft(s + t) == StripLeft(s) + t
  {
    var i :| 0 <= i < |s| && !IsSpace(s[i]);
    if IsSpace(s[0]) {
      assert s[1..][i - 1] == s[i];
      StripLeftStopsEarly(s[1..], t);
      calc {
        StripLeft(s + t);
        { assert (s + t)[0] == s[0]; }
        StripLeft((s + t)[1..]);
        { assert (s + t)[1..] == s[1..] + t; }
        StripLeft(s[1..] + t);
        StripLeft(s[1..]) + t;
        StripLeft(s) + t;
      }
    } else {
      assert (s + t)[0] == s[0];
    }
  }

  /** `strip` ignores whitespace padding on either side. */
  lemma StripPadded(pad1: string, s: string, pad2: string)
    requires AllSpace(pad1) && AllSpace(pad2)
    ensures Strip(pad1 + s + pad2) == Strip(s)
  {
    if AllSpace(s) {
      BlankIffAllSpace(s);
      BlankIffAllSpace(pad1 + s + pad2);
    } else {
      assert pad1 + s + pad2 == pad1 + (s + pad2);
      StripLeftSkipsSpace(pad1, s + pad2);
      StripLeftStopsEarly(s, pad2);
      StripRightSkipsSpace(StripLeft(s), pad2);
    }
  }

  /** Python's `str.lower()` restricted to ASCII: only 'A'..'Z' change. */
  function LowerChar(c: char): (r: char)
    ensures 'A' <= c <= 'Z' ==> r != c && 'a' <= r <= 'z'
    ensures !('A' <= c <= 'Z') ==> r == c
  {
    if 'A' <= c <= 'Z' then (c as int + 32) as char else c
  }

  function Lower(s: string): (r: string)
    ensures |r| == |s|
    ensures forall i :: 0 <= i < |s| ==> r[i] == LowerChar(s[i])
  {
    seq(|s|, i requires 0 <= i < |s| => LowerChar(s[i]))
  }

  /** Lower-casing leaves whitespace alone. */
  lemma LowerKeepsSpace(s: string)
    requires AllSpace(s)
    ensures Lower(s) == s
  {
  }

  /** `needle` occurs in `hay` starting at index `i`. */
  ghost predicate OccursAt(hay: string, needle: string, i: int) {
    0 <= i && i + |needle| <= |hay| && hay[i..i + |needle|] == needle
  }

  /** Python's `needle in hay` for strings. */
  function Contains(hay: string, needle: string): (r: bool)
    ensures r <==> exists i :: OccursAt(hay, needle, i)
    decreases |hay|
  {
    if |needle| <= |hay| && hay[..|needle|] == needle then
      assert OccursAt(hay, needle, 0);
      true
    else if hay == [] then
      false
    else
      var r := Contains(hay[1..], needle);
      assert forall i :: OccursAt(hay[1..], needle, i) <==> OccursAt(hay, needle, i + 1) by {
        forall i | OccursAt(hay[1..], needle, i)
          ensures OccursAt(hay, needle, i + 1)
        {
          assert hay[1..][i..i + |needle|] == hay[i + 1..i + 1 + |needle|];
        }
      }
      assert forall i :: OccursAt(hay, needle, i) && i != 0 ==> OccursAt(hay[1..], needle, i - 1);
      r
  }

  /** Python's `a <= b` on strings: lexicographic by code point, a proper
      prefix coming first. */
  predicate LexLe(a: string, b: string) {
    a == [] || (b != [] && (a[0] < b[0] || (a[0] == b[0] && LexLe(a[1..], b[1..]))))
  }

  lemma {:induction false} LexLeTotal(a: string, b: string)
    ensures LexLe(a, b) || LexLe(b, a)
  {
    if a != [] && b != [] && a[0] == b[0] {
      LexLeTotal(a[1..], b[1..]);
    }
  }

  lemma {:induction false} LexLeTransitive(a: string, b: string, c: string)
    requires LexLe(a, b) && LexLe(b, c)
    ensures LexLe(a, c)
  {
    if a != [] && a[0] == b[0] && b[0] == c[0] {
      LexLeTransitive(a[1..], b[1..], c[1..]);
    }
  }

  lemma {:induction false} LexLeAntisymmetric(a: string, b: string)
    requires LexLe(a, b) && LexLe(b, a)
    ensures a == b
  {
    if a != [] {
      LexLeAntisymmetric(a[1..], b[1..]);
      assert a == [a[0]] + a[1..];
      assert b == [b[0]] + b[1..];
    }
  }

  /** The decimal digit for `d`. */
  function Digit(d: int): (c: char)
    requires 0 <= d < 10
    ensures '0' <= c <= '9' && c as int - '0' as int == d
  {
    (d + '0' as int) as char
  }

  /** Decimal digits of a natural number, most significant first, no leading zeros. */
  function NatDigits(n: nat): (s: string)
    ensures 1 <= |s|
    ensures forall i :: 0 <= i < |s| ==> '0' <= s[i] <= '9'
    ensures |s| > 1 ==> s[0] != '0'
  {
    if n < 10 then [Digit(n)] else NatDigits(n / 10) + [Digit(n % 10)]
  }

  /** How f"{n}" renders an int: an optional minus sign then the digits. */
  function DecimalString(n: int): (s: string)
    ensures s != [] && (s[0] == '-' <==> n < 0)
  {
    if n < 0 then "-" + NatDigits(-n) else NatDigits(n)
  }

  /** Reads a string of decimal digits back into a number. */
  function DigitsValue(s: string): nat
    requires forall i :: 0 <= i < |s| ==> '0' <= s[i] <= '9'
  {
    if s == [] then 0 else 10 * DigitsValue(s[..|s| - 1]) + (s[|s| - 1] as int - '0' as int)
  }

  /** Reads an optional minus sign and decimal digits back into an int. */
  function ParseDecimal(s: string): int
    requires s != []
    requires forall i :: (if s[0] == '-' then 1 else 0) <= i < |s| ==> '0' <= s[i] <= '9'
  {
    if s[0] == '-' then -(DigitsValue(s[1..]) as int) else DigitsValue(s)
  }

  lemma {:induction false} NatDigitsRoundTrip(n: nat)
    ensures DigitsValue(NatDigits(n)) == n
  {
    if n >= 10 {
      NatDigitsRoundTrip(n / 10);
      var s := NatDigits(n);
      assert s[..|s| - 1] == NatDigits(n / 10);
    }
  }

  /** The rendering of an integer is read back as the same integer, so two
      different status codes never render alike. */
  lemma DecimalRoundTrip(n: int)
    ensures ParseDecimal(DecimalString(n)) == n
  {
    if n < 0 {
      NatDigitsRoundTrip(-n);
      assert DecimalString(n)[1..] == NatDigits(-n);
    } else {
      NatDigitsRoundTrip(n);
    }
  }
}

=== FILE: wrappers.dfy ===
/** Failure-carrying result types shared by every module of the model:
    Python's `None` becomes `Option.None`, and an operation that either
    returns a value or raises becomes a `Result`; one that returns nothing
    but may raise becomes an `Outcome`. */
module Wrappers {

  datatype Option<+T> = None | Some(value: T)

  datatype Result<+R, +E> = Success(value: R) | Failure(error: E) {
    predicate IsFailure() {
      Failure?
    }

    function PropagateFailure<U>(): Result<U, E>
      requires Failure?
    {
      Failure(error)
    }

    function Extract(): R
      requires Success?
    {
      value
    }
  }

  datatype Outcome<+E> = Pass | Fail(error: E)
}
